=== FILE: README.md ===
# THR registry: a Dafny model of the console's client-side decisions

The THR ("Technical Hardening Requirements") registry is a browser console for a
catalog of security controls. Each control belongs to a technology, and each
technology belongs to a family. Most of the code is React plumbing over a hosted
database client. Its decisions are small, and this project models them as
immutable datatypes and pure functions:

- **Controls table** (`controls_table.dfy`, `controls_table_ui.dfy`). Covers sort
  toggling, the single expanded row, and the choice between the table and the edit
  form. It also covers the sort icon, `truncateText`, the truncated statement and
  THR-code cells, the ranking fallback, and which rows get a detail panel.
- **Edit form** (`edit_control_form.dfy`). Covers the validation schema (seven
  required fields, two optional), the blank default control, submit, cancel and the
  title.
- **Shell** (`home.dfy`). Covers the family-to-default-technology mapping and the
  replace-by-id update of the controls list.
- **Technology selector** (`technology_selector.dfy`). Covers the selected family,
  the search text, the per-family options table and the forwarding handlers.
- **Controls hook** (`use_controls.dfy`). The hook's options become an abstract
  query plan. The plan has a lazy guard, technology-over-family precedence, an OR
  search over three fields, an optional order, and rows 0..49. The plan gets its
  meaning by evaluation over an in-memory `Store` of rows. The file also models the
  save and delete operations and their true/false results.
- **Shared modules.** `records.dfy` holds the row types, `text.dfy` the string
  behaviour and `ordering.dfy` the one-column sort.

This is a thin core, and nothing here is algorithmically deep. The proofs with real
work cover a few areas:
- the sort: its result is sorted and a permutation of its input;
- the substring search: it agrees with its existential definition;
- order preservation: the filtered and deleted rows are subsequences of the store;
- completeness of the query when at most a page matches;
- row counting over the rendered table;
- the keystroke-forwarding induction.

Some behaviour of the code is easy to misread. The model follows the code:

- **Save: update or insert.** `saveControl` does not look up whether a row with the
  id exists. It updates when `control.id` is truthy and inserts otherwise. A save
  with an unknown non-empty id therefore updates zero rows and reports success
  (`UseControls.SaveWithUnknownIdChangesNothing`).
- **Save result after a failed refetch.** The refetch inside `saveControl` catches
  its own errors, so the result is true whenever the write succeeded. If the
  refetch fails, the hook's error becomes "Failed to fetch controls".
- **Lazy guard.** The lazy-guard return happens before `setError(null)`, so a
  skipped fetch keeps the previous error.
- **No default order.** Without a sort column the query carries no `order` at all.
- **Leaving the form.** The table's `handleSave` calls `onSave` and then leaves edit
  mode, whatever the save achieved. It stays in edit mode only when `onSave` throws
  synchronously. The exception then skips the rest of `handleSave` and reaches the
  form's submit handler, which shows "Failed to save control. Please try again."
- **Technology state.** The selector holds no technology state and is not told the
  shell's selection. The shell sets a fixed default technology per family.
- **Shell wiring.** The shell passes `onControlUpdate` to the table, which declares
  no such prop. The table's `onSave` therefore stays a no-op, and an edit saved in
  the table never reaches the shell's list (see "## Findings"). The shell also
  passes `selectedFamily` and `selectedTechnology`, which the selector does not
  declare, and no `onSearchChange`.
- **Family filter.** The family filter names a column of the embedded `Tech`
  resource, and the embed has no `!inner`. Under the backend's rule for filters on
  embedded resources, the filter removes no control row (see "## Findings").

## Model

| member | source | states |
|---|---|---|
| Text.TruncateText | src/components/ControlsTable.tsx:89-94 | empty text gives ""; text no longer than the limit is returned unchanged; longer text gives the first `max` characters plus "...", `max + 3` characters in all |
| Text.TruncateBound | src/components/ControlsTableUI.tsx:51-56 | the shown text never exceeds `max + 3` characters and differs from the input only when the input is longer than `max` |
| Text.TruncateKeepsPrefix | src/components/ControlsTable.tsx:89-94 | the visible part of the result, without the marker, is a prefix of the input, of length `max` when truncated |
| Text.TruncateIdempotent | src/components/ControlsTableUI.tsx:51-56 | truncating an already truncated text with the same limit changes nothing |
| Text.Contains | src/hooks/useControls.ts:46-50 | the left-to-right scan is true exactly when the term occurs at some position of the text (the meaning of `%term%`) |
| Ordering.SortBy | src/hooks/useControls.ts:53-57 | the ordered rows are sorted by the column in the requested direction and are a permutation of the input |
| UseControls.BuildQuery | src/hooks/useControls.ts:22-61 | no query iff neither techId nor searchTerm is truthy; techId equality wins over a family filter, which applies only without techId; the search is present iff the term is truthy; an order iff a sort column is given, ascending iff the direction is "asc"; the range is 0..49 |
| UseControls.FamilyOf | src/hooks/useControls.ts:33-36 | the family joined to a control is the `techFamId` of a `Tech` row with the control's `techId`, and exists iff such a row exists |
| UseControls.MatchesIdentity | src/hooks/useControls.ts:38-43 | any row passes without a filter; a technology filter passes exactly the rows with that techId; a family filter passes only rows whose technology is in the family, and every row whose technology rows all lie in it |
| UseControls.MatchesSearch | src/hooks/useControls.ts:45-50 | without a term every row passes; with one, a row passes exactly when the lower-cased term occurs in its lower-cased id, statement or description |
| UseControls.Filter | src/hooks/useControls.ts:38-50 | the kept rows are exactly the stored rows that pass the identity filter and the OR search, and they keep their store order (a subsequence of the store) |
| UseControls.Range | src/hooks/useControls.ts:59-61 | rows `from` through `to` inclusive, clipped: from 0 the result is a prefix of exactly `min(length, to + 1)` rows, all taken from the input |
| UseControls.Run | src/hooks/useControls.ts:59-63 | the answer holds at most `to - from + 1` rows, each a stored row passing the filters |
| UseControls.Answer | src/hooks/useControls.ts:22-66 | nothing under the lazy guard; otherwise at most 50 stored rows, each passing the query's filters |
| UseControls.FamilyAloneNeverFetches | src/hooks/useControls.ts:23-27 | with neither techId nor searchTerm no query is issued and the answer is empty, whatever the family id |
| UseControls.TechIdOverridesFamily | src/hooks/useControls.ts:39-43 | with a truthy techId, changing techFamId does not change the query |
| UseControls.SelectByTechOnlyThatTech | src/hooks/useControls.ts:39-40 | with a technology chosen, every returned control references that technology |
| UseControls.SelectByFamilyOnlyThatFamily | src/hooks/useControls.ts:41-42 | under the intended reading of the family filter (see "## Findings"): without techId but with a family, every returned control's technology belongs to that family |
| UseControls.SelectBySearchMatches | src/hooks/useControls.ts:46-50 | with a search term, every returned control contains the term, ignoring case, in its id, statement or description |
| UseControls.SelectIsFirstPage | src/hooks/useControls.ts:59-61 | the answer is a prefix of the ordered filtered rows: a full page of 50 rows when more match, all of them otherwise |
| UseControls.SelectComplete | src/hooks/useControls.ts:38-61 | when at most a page matches, every stored control passing the filters is returned |
| UseControls.SelectSorted | src/hooks/useControls.ts:53-57 | with a sort column the answer is sorted by it, ascending exactly when the direction is "asc" (a missing direction sorts descending) |
| UseControls.SelectUnorderedKeepsStoreOrder | src/hooks/useControls.ts:52-57 | without a sort column no order is applied: the answer is a prefix of the filtered rows and a subsequence of the store, in store order |
| UseControls.Fetch | src/hooks/useControls.ts:22-73 | a skipped fetch empties the list and keeps the error; a failed read keeps the list and sets "Failed to fetch controls"; a successful read replaces the list with the answer and clears the error, and that answer is the as-sent query's whenever a techId is chosen or no family is given |
| UseControls.FirstFetch | src/hooks/useControls.ts:18-27 | from the hook's initial empty state, a skipped first fetch stays empty with no error, and a failed first read leaves the list empty with "Failed to fetch controls" |
| UseControls.Merge | src/hooks/useControls.ts:83-86 | the merged row keeps the stored id, technology, ranking and timestamps unless the partial carries them |
| UseControls.MergeColumns | src/hooks/useControls.ts:83-86 | column by column, the merged row holds the partial's value where the partial has the column and the stored value elsewhere |
| UseControls.Write | src/hooks/useControls.ts:79-99 | when the partial carries a truthy id, the row count is kept and exactly the rows with that id become the stored row merged with the partial and stamped with `updated_at`; otherwise the partial, completed with the table's defaults, is appended |
| UseControls.SaveControl | src/hooks/useControls.ts:75-109 | the result is true iff the write of the partial succeeded; on failure the store is untouched and the error is "Failed to save control"; on success the store is exactly the chosen write (update by a truthy id, insert otherwise), the error is cleared and a refetch of that store follows |
| UseControls.SaveWithIdUpdatesInPlace | src/hooks/useControls.ts:79-89 | a save with an id keeps the row count and every row with another id; each row with that id takes the columns the partial carries, keeps every other column, and is stamped with `updated_at` |
| UseControls.FormSaveKeepsTechnology | src/hooks/useControls.ts:79-87 | an update carrying only the edit form's nine schema columns keeps every row's id, technology, ranking and creation time |
| UseControls.HookFormSaveKeepsTechnology | src/hooks/useControls.ts:75-103 | a successful save through the hook of the form's nine columns keeps every stored control's id and technology, and a good refetch lists the query's answer over the written store |
| UseControls.SaveWithUnknownIdChangesNothing | src/hooks/useControls.ts:79-87 | the update-or-insert choice rests on the id alone: an id no row has leaves the store unchanged |
| UseControls.SaveWithoutIdInserts | src/hooks/useControls.ts:90-96 | a save without an id appends one row, which has every column the partial carries and the table's default in every other |
| UseControls.RemoveId | src/hooks/useControls.ts:114 | the rows left are exactly the stored rows whose id differs from the deleted one, in their stored order |
| UseControls.DeleteControl | src/hooks/useControls.ts:111-126 | the result is true iff the delete succeeded; on failure the store is untouched and the error is "Failed to delete control"; on success the rows with that id are gone, the rest stay in order, and a refetch follows |
| UseControls.AnswerAsWritten | src/hooks/useControls.ts:33-43 | the query as the backend applies it: with a techId or without a family it is the modelled answer; without a techId the family id has no effect on the answer |
| UseControls.FamilyFilterAsWrittenKeepsOtherFamilies | src/hooks/useControls.ts:41-42 | on a store with one control of family "B", asking for family "A" with a matching search returns that control as written, and not under the intended reading |
| ControlsTableUI.SortIcon | src/components/ControlsTableUI.tsx:41-49 | neutral exactly for columns other than the sort column; for the sort column, ascending iff the direction is "asc" |
| ControlsTableUI.AtMostOneSortedHeader | src/components/ControlsTableUI.tsx:41-49 | no two headers show a direction icon at once |
| ControlsTableUI.StatementCell | src/components/ControlsTableUI.tsx:131 | the statement cell has at most 153 characters (150 plus "...") and is the statement itself when that is short |
| ControlsTableUI.ThrCodeCell | src/components/ControlsTableUI.tsx:134 | the THR-code cell has at most 33 characters (30 plus "...") and is the code itself when that is short |
| ControlsTableUI.RankingShown | src/components/ControlsTableUI.tsx:168 | "Not ranked" exactly when the ranking is absent or 0; otherwise the ranking itself |
| ControlsTableUI.RenderRows | src/components/ControlsTableUI.tsx:106-186 | every control's main row is rendered, and the body has one extra row per control carrying the expanded id |
| ControlsTableUI.DetailRowsOnlyForExpanded | src/components/ControlsTableUI.tsx:149-186 | every rendered detail row belongs to the control whose id is the expanded row |
| ControlsTableUI.RenderRowsCounts | src/components/ControlsTableUI.tsx:106-186 | one main row per control; the number of detail rows is the number of controls carrying the expanded id, none when nothing is expanded |
| ControlsTableUI.AtMostOneDetailRow | src/components/ControlsTableUI.tsx:106-149 | with distinct ids, at most one detail row is rendered |
| ControlsTable.HandleSort | src/components/ControlsTable.tsx:53-59 | the clicked column becomes the sort column; the direction is descending iff that column was sorted ascending; `onSort` receives exactly the new column and direction |
| ControlsTable.SortOtherColumnStartsAscending | src/components/ControlsTable.tsx:54-55 | a click on any column other than the sort column starts ascending |
| ControlsTable.SortSameColumnFlips | src/components/ControlsTable.tsx:54-55 | a click on the sort column reverses its direction |
| ControlsTable.SortTwiceAlternates | src/components/ControlsTable.tsx:53-59 | a second click on the same column reverses the first; from ascending on that column, two clicks return to ascending |
| ControlsTable.SortIconFollowsRequest | src/components/ControlsTable.tsx:53-87 | after a click, the clicked header's icon shows the direction sent to `onSort` |
| ControlsTable.HandleExpandRow | src/components/ControlsTable.tsx:65-68 | toggling the expanded id collapses it; toggling any other id expands that one; nothing else changes |
| ControlsTable.ExpandOnlyToggledRow | src/components/ControlsTable.tsx:65-68 | after a toggle, no row other than the toggled one is expanded |
| ControlsTable.ViewOf | src/components/ControlsTable.tsx:97-106 | the table shows exactly when no control is being edited; otherwise the form shows that control |
| ControlsTable.HandleRowClick | src/components/ControlsTable.tsx:61-63 | a row click opens the form on that control |
| ControlsTable.HandleSave | src/components/ControlsTable.tsx:70-73 | save forwards the edited control to `onSave`; when `onSave` returns the table comes back with nothing else changed, and when it throws the state is unchanged and the form stays open |
| ControlsTable.HandleCancel | src/components/ControlsTable.tsx:75-77 | cancel returns to the table without calling `onSave` |
| ControlsTable.EditRoundTrip | src/components/ControlsTable.tsx:61-77 | opening a row and then cancelling, or saving to an `onSave` that returns, restores the previous state; only saving reaches the parent; if `onSave` throws, the form stays open on the clicked control |
| ControlsTable.InitialShowsTable | src/components/ControlsTable.tsx:48-51 | the initial state shows the table, and all five sortable headers show the neutral icon |
| EditControlForm.Validate | src/components/EditControlForm.tsx:19-29 | an error (field, message) is reported iff that field is required, carries that fixed message, and is empty |
| EditControlForm.ValidIffComplete | src/components/EditControlForm.tsx:19-29 | values pass iff id, controlFamily, controlType, description, statement, recommendation and THR_code are all non-empty |
| EditControlForm.OptionalFieldsNeverFail | src/components/EditControlForm.tsx:25-28 | monitorID and comments never produce an error, whether empty or absent, and changing them changes no result |
| EditControlForm.EmptyStatementReported | src/components/EditControlForm.tsx:24 | an empty statement gives "Statement is required", and the statement does not affect any other field's result |
| EditControlForm.DefaultControlFailsOnRequired | src/components/EditControlForm.tsx:40-50 | the blank default control fails on each of the seven required fields with its message and on no other field |
| EditControlForm.Open | src/components/EditControlForm.tsx:52-68 | a fresh form shows the given control, or the blank one, with no banner and no field errors |
| EditControlForm.Submit | src/components/EditControlForm.tsx:70-79 | invalid values give field errors, do not call `onSave`, and leave the banner; valid values clear the banner and go to `onSave` unchanged; if `onSave` throws, the banner reads "Failed to save control. Please try again."; entered values stay |
| EditControlForm.SubmitEmptyStatementRefused | src/components/EditControlForm.tsx:60-79 | submitting with an empty statement never reaches `onSave` and shows "Statement is required" |
| EditControlForm.Cancel | src/components/EditControlForm.tsx:81-84 | cancel resets the values to the original control and signals `onCancel`, not `onSave` |
| EditControlForm.CancelRestoresOpen | src/components/EditControlForm.tsx:52-84 | cancelling shows exactly the values that opening the form on the same control showed, with no field errors |
| EditControlForm.Title | src/components/EditControlForm.tsx:86-92 | nothing renders when closed; the title is "Edit Control: <id>" for a non-empty id, else "Add New Control" |
| EditControlForm.TitlesDistinguishEditFromAdd | src/components/EditControlForm.tsx:92 | a control with an id never gets the "Add New Control" title |
| Home.Initial | src/components/home.tsx:20-22 | the shell starts on family "OS" and technology "Windows 11" |
| Home.HandleFamilyChange | src/components/home.tsx:94-105 | the family is stored; the technology becomes "Windows 11" for "OS", "SQL Server" for "Database", and "" otherwise |
| Home.HandleTechnologyChange | src/components/home.tsx:107-110 | the technology is stored and the family is unchanged |
| Home.HandleControlUpdate | src/components/home.tsx:112-118 | the length is kept, every control with the update's id becomes the update, and every other control is unchanged |
| Home.UpdateKeepsIds | src/components/home.tsx:112-118 | every position keeps its id, so the order is preserved |
| Home.UpdateWithUnknownIdIsIdentity | src/components/home.tsx:112-118 | an update whose id matches no control leaves the list identical |
| Home.UpdateIdempotent | src/components/home.tsx:112-118 | applying the same update twice equals applying it once |
| Home.DefaultTechnologyAgainstSelector | src/components/home.tsx:98-101 | the shell's default for "OS" is one of the selector's OS options; its default for "Database" ("SQL Server") is not one of the selector's Database options |
| Home.FamilyChangeKeepsShellAndSelectorInStep | src/components/home.tsx:147-152 | a tab click forwarded from the selector leaves the shell and the selector on the same family |
| Home.ShellAndSelectorStartTogether | src/components/home.tsx:20-22 | the shell and the selector start on the same family, and the shell's starting technology is among the selector's options for it |
| Home.AfterTableLeaves | src/components/home.tsx:161-164 | when the table leaves its form, the shell's list is updated with the saved control only if its handler is wired to the table's `onSave`; a cancel or an unwired save changes nothing |
| Home.UnwiredSaveIsLost | src/components/home.tsx:161-164 | as wired, an edit saved in the table leaves the shell's list on the old control, where the handler would have put the edited one |
| Home.WiredSaveReachesList | src/components/home.tsx:112-118 | with the handler wired, an accepted save replaces every control carrying the saved id and keeps the rest; a cancel changes nothing |
| TechnologySelector.DropdownItems | src/components/TechnologySelector.tsx:120-122 | six options for each of the six tab families, none for any other string |
| TechnologySelector.OptionsDistinct | src/components/TechnologySelector.tsx:29-78 | within each known family the options are pairwise distinct |
| TechnologySelector.Initial | src/components/TechnologySelector.tsx:25-26 | the selector starts on the first tab, "OS", whose six options fill the dropdown, with an empty search |
| TechnologySelector.HandleFamilyChange | src/components/TechnologySelector.tsx:80-83 | the family is stored and the parent is told exactly that value; the search is untouched |
| TechnologySelector.HandleTechnologyChange | src/components/TechnologySelector.tsx:85-87 | the value is forwarded unchanged and no local state changes |
| TechnologySelector.HandleSearchChange | src/components/TechnologySelector.tsx:89-92 | the exact input is stored and the same string is forwarded |
| TechnologySelector.TypingForwardsEveryChange | src/components/TechnologySelector.tsx:89-92 | with no debounce, every change is forwarded in order, the box ends on the last text, and the family is untouched |

## Left out

- Network, `await`, loading flags and the database client. The store is a value, and each remote call's success or failure is a boolean parameter. The `updated_at` time is a parameter `now`.
- Re-fetching when the hook's options change (the `useEffect` dependency list) is not modelled. The stale-response race is not modelled either. Both are React scheduling and concurrency.
- The technology directory hook (`src/hooks/useTechnologies.ts`) is not part of this model. It is a fetch wrapper with one optional equality filter. Its `techfam_id` column name disagrees with `techFamId` in the `Tech` row type.
- Application bootstrap, routing, theming, JSX markup, CSS, animations, icons and the mock data arrays. `Home.Initial` takes the initial controls as a parameter.
- react-hook-form and zod internals. The schema's effect is the function `EditControlForm.Validate`. The form's values are always strings, so zod's "expected string" errors cannot arise.
- UseControls.MatchesSearch: `ilike` is modelled as ASCII case-folded substring matching. The term is interpolated unescaped, so `%`, `_` and `,` keep their backend meaning. Non-ASCII case folding is also not modelled.
- UseControls.MatchesIdentity: the family filter on the embedded `Tech.techFamId` is read as a filter on the control rows, the evident intent. `UseControls.AnswerAsWritten` models the query as the backend applies it.
- UseControls.SelectByFamilyOnlyThatFamily: proved under the intended reading only. As written, the family filter keeps control rows of every family (`UseControls.FamilyFilterAsWrittenKeepsOtherFamilies`).
- UseControls.Run: ordering is lexicographic by code point. The order among rows with equal keys is left unspecified, as the backend leaves it. The backend's collation is not modelled. The two timestamp columns cannot be chosen as sort columns.
- Returned rows carry the joined `Tech`/`TechFam` titles in the program. The model returns the control rows only.
- Text.TruncateText: lengths count Dafny characters, while JavaScript counts UTF-16 code units. The default `maxLength` of 100 is not modelled because every call site passes a limit.
- The table component's own row markup (`ControlsTable.tsx`: statement cut at 150 characters, THR code shown in full, monitor id in the detail panel) is not modelled separately. Row rendering is modelled on `ControlsTableUI.tsx`.
- `saveControl` takes a `Partial<Control>`, modelled as `UseControls.Patch`: a row together with the set of columns it carries. Columns an insert lacks take the database's defaults, which are a parameter `defaults`.
- UseControls.Fetch: the stored answer follows the intended family filter (`UseControls.Answer`). For a family without a technology, the query as sent also returns controls of other families (`UseControls.AnswerAsWritten`, see "## Findings"). The two agree whenever a technology is chosen or no family is given, and the contract states that agreement.
- TechnologySelector.DropdownItems: the family only ever holds one of the six tab values. Strings inherited from `Object.prototype`, such as "constructor", would make `?.map` throw. They cannot arise and are not modelled.
- The search text the selector forwards reaches nobody, because the shell passes no `onSearchChange`. The shell does not use the controls hook either. Each component is modelled on its own, and `Home.AfterTableLeaves` models the one callback between table and shell.

## Findings

| source | as written | input that shows it | evidently intended | confidence | as-written member | corrected member |
|---|---|---|---|---|---|---|
| src/hooks/useControls.ts:41-42 | `.eq("Tech.techFamId", …)` filters the embedded `Tech`, which is embedded without `!inner`, so no control row is removed | techFamId "A", searchTerm "x", one control "x" whose technology is in family "B": the control is returned | only controls whose technology is in the family are returned | medium, not executed | UseControls.FamilyFilterAsWrittenKeepsOtherFamilies | UseControls.SelectByFamilyOnlyThatFamily |
| src/components/home.tsx:161-164 | the shell passes `onControlUpdate`, which the table does not declare, so the table's `onSave` stays its no-op default | edit a listed control in the table and save: the shell's list keeps the old control | the shell's `handleControlUpdate` receives the saved control | high, not executed | Home.UnwiredSaveIsLost | Home.WiredSaveReachesList |

=== FILE: controls_table.dfy ===
/**
 The controls table's own state machine: sort toggling, the single expanded
 row, and the switch between the table view and the edit form.
 */
module ControlsTable {
  import opened Records
  import ControlsTableUI

  /** The table's local state. */
  datatype TableState = TableState(
    expandedRow: Option<string>,
    editingControl: Option<Control>,
    sortColumn: Option<Column>,
    sortDirection: Direction
  )

  /** Nothing expanded, nothing being edited, no sort column, ascending. */
  const Initial: TableState := TableState(None, None, None, Asc)

  /** The headers that react to a click, left to right. */
  const SortableColumns: seq<Column> := [Id, ControlFamily, ControlType, Statement, THRCode]

  /** The arguments passed to the parent's `onSort`. */
  datatype SortRequest = SortRequest(column: Column, direction: Direction)

  datatype SortStep = SortStep(state: TableState, notified: SortRequest)

  /** `handleSort`: the clicked column becomes the sort column; the direction
      turns descending only when that column was already sorted ascending. */
  function HandleSort(st: TableState, column: Column): (r: SortStep)
    ensures r.state.sortColumn == Some(column)
    ensures r.state.sortDirection == Desc <==> st.sortColumn == Some(column) && st.sortDirection == Asc
    ensures r.notified == SortRequest(column, r.state.sortDirection)
    ensures r.state.expandedRow == st.expandedRow && r.state.editingControl == st.editingControl
  {
    var newDirection := if st.sortColumn == Some(column) && st.sortDirection == Asc then Desc else Asc;
    SortStep(st.(sortColumn := Some(column), sortDirection := newDirection),
             SortRequest(column, newDirection))
  }

  /** A click on a column other than the sorted one always starts ascending. */
  lemma SortOtherColumnStartsAscending(st: TableState, column: Column)
    requires st.sortColumn != Some(column)
    ensures HandleSort(st, column).state.sortDirection == Asc
  {
  }

  /** A click on the sorted column flips its direction. */
  lemma SortSameColumnFlips(st: TableState, column: Column)
    requires st.sortColumn == Some(column)
    ensures HandleSort(st, column).state.sortDirection != st.sortDirection
  {
  }

  /** Two clicks on the same column starting from ascending on it return to
      ascending; the second click always reverses the first. */
  lemma SortTwiceAlternates(st: TableState, column: Column)
    ensures var once := HandleSort(st, column).state;
      var twice := HandleSort(once, column).state;
      twice.sortDirection != once.sortDirection
      && (st.sortColumn == Some(column) && st.sortDirection == Asc ==> twice.sortDirection == Asc)
  {
  }

  /** The header icon after a click shows exactly the direction sent to the parent. */
  lemma SortIconFollowsRequest(st: TableState, column: Column)
    ensures var s := HandleSort(st, column);
      ControlsTableUI.SortIcon(s.state.sortColumn, s.state.sortDirection, column) ==
        (if s.notified.direction == Asc then ControlsTableUI.Ascending else ControlsTableUI.Descending)
  {
  }

  /** `handleExpandRow`: clicking the expanded row collapses it, clicking any
      other row expands that row instead. */
  function HandleExpandRow(st: TableState, id: string): (r: TableState)
    ensures st.expandedRow == Some(id) ==> r.expandedRow == None
    ensures st.expandedRow != Some(id) ==> r.expandedRow == Some(id)
    ensures r == st.(expandedRow := r.expandedRow)
  {
    st.(expandedRow := if st.expandedRow == Some(id) then None else Some(id))
  }

  /** After a toggle the only row that can be expanded is the toggled one. */
  lemma ExpandOnlyToggledRow(st: TableState, id: string, other: string)
    requires other != id
    ensures HandleExpandRow(st, id).expandedRow != Some(other)
  {
  }

  /** Which of the two exclusive views the component shows. */
  datatype View = TableView | EditView(control: Control)

  /** The edit form replaces the table whenever a control is being edited. */
  function ViewOf(st: TableState): (r: View)
    ensures r == TableView <==> st.editingControl.None?
    ensures r.EditView? ==> st.editingControl == Some(r.control)
  {
    match st.editingControl
    case None => TableView
    case Some(c) => EditView(c)
  }

  /** `handleRowClick`: open the form on the clicked control. */
  function HandleRowClick(st: TableState, c: Control): (r: TableState)
    ensures ViewOf(r) == EditView(c)
    ensures r == st.(editingControl := Some(c))
  {
    st.(editingControl := Some(c))
  }

  /** The outcome of leaving the form: the new state and the control passed
      to the parent's `onSave`, if any. */
  datatype LeaveStep = LeaveStep(state: TableState, saved: Option<Control>)

  /** `handleSave`: forward the edited control to the parent's `onSave`, then
      return to the table. `parentThrows` says whether `onSave` throws: the
      exception leaves `handleSave` before edit mode ends, so the form stays
      open (and the form's submit handler shows its banner). */
  function HandleSave(st: TableState, updated: Control, parentThrows: bool): (r: LeaveStep)
    ensures r.saved == Some(updated)
    ensures !parentThrows ==> ViewOf(r.state) == TableView && r.state == st.(editingControl := None)
    ensures parentThrows ==> r.state == st
  {
    if parentThrows then LeaveStep(st, Some(updated))
    else LeaveStep(st.(editingControl := None), Some(updated))
  }

  /** `handleCancel`: return to the table without saving. */
  function HandleCancel(st: TableState): (r: LeaveStep)
    ensures r.saved == None
    ensures ViewOf(r.state) == TableView
    ensures r.state == st.(editingControl := None)
  {
    LeaveStep(st.(editingControl := None), None)
  }

  /** Opening a row and then cancelling, or saving to a parent whose `onSave`
      returns, goes back to the table with sort and expansion as they were;
      only saving reaches the parent. When `onSave` throws, the form stays
      open on the clicked control. */
  lemma EditRoundTrip(st: TableState, c: Control, updated: Control)
    requires st.editingControl.None?
    ensures HandleSave(HandleRowClick(st, c), updated, false) == LeaveStep(st, Some(updated))
    ensures var r := HandleSave(HandleRowClick(st, c), updated, true);
      r.saved == Some(updated) && ViewOf(r.state) == EditView(c) && r.state.expandedRow == st.expandedRow
    ensures HandleCancel(HandleRowClick(st, c)) == LeaveStep(st, None)
  {
  }

  /** The initial state shows the table with neutral icons on every header. */
  lemma InitialShowsTable()
    ensures ViewOf(Initial) == TableView
    ensures forall i :: 0 <= i < |SortableColumns| ==>
      ControlsTableUI.SortIcon(Initial.sortColumn, Initial.sortDirection, SortableColumns[i]) == ControlsTableUI.Neutral
  {
  }
}

=== FILE: controls_table_ui.dfy ===
/**
 The presentational controls table: the sort icon in each sortable header,
 the truncated statement and THR-code cells, the ranking text of the detail
 panel, and which rows get a detail panel.
 */
module ControlsTableUI {
  import opened Records
  import opened Text

  /** The icon beside a sortable header. */
  datatype Icon = Neutral | Ascending | Descending

  /** `renderSortIcon`: neutral unless the header is the sorted column, then
      the icon of the current direction. */
  function SortIcon(sortColumn: Option<Column>, sortDirection: Direction, column: Column): (r: Icon)
    ensures r == Neutral <==> sortColumn != Some(column)
    ensures r == Ascending <==> sortColumn == Some(column) && sortDirection == Asc
    ensures r == Descending <==> sortColumn == Some(column) && sortDirection == Desc
  {
    if sortColumn != Some(column) then Neutral
    else
      match sortDirection
      case Asc => Ascending
      case Desc => Descending
  }

  /** At most one header shows a direction icon at a time. */
  lemma AtMostOneSortedHeader(sortColumn: Option<Column>, sortDirection: Direction, a: Column, b: Column)
    requires SortIcon(sortColumn, sortDirection, a) != Neutral
    requires SortIcon(sortColumn, sortDirection, b) != Neutral
    ensures a == b
  {
  }

  /** Characters of the statement shown in the statement column. */
  const StatementLimit: nat := 150
  /** Characters of the THR code shown in the THR-code column. */
  const ThrCodeLimit: nat := 30

  /** The statement cell: the statement when short, otherwise its first 150
      characters and "...", so never more than 153 characters. */
  function StatementCell(c: Control): (r: string)
    ensures |r| <= StatementLimit + 3
    ensures |c.statement| <= StatementLimit ==> r == c.statement
    ensures |c.statement| > StatementLimit ==> r == c.statement[..StatementLimit] + Ellipsis
  {
    TruncateText(c.statement, StatementLimit)
  }

  /** The THR-code cell: never more than 33 characters. */
  function ThrCodeCell(c: Control): (r: string)
    ensures |r| <= ThrCodeLimit + 3
    ensures |c.THR_code| <= ThrCodeLimit ==> r == c.THR_code
    ensures |c.THR_code| > ThrCodeLimit ==> r == c.THR_code[..ThrCodeLimit] + Ellipsis
  {
    TruncateText(c.THR_code, ThrCodeLimit)
  }

  /** What the detail panel shows under "Ranking". */
  datatype RankingText = Ranked(rank: int) | NotRanked

  /** `ranking || "Not ranked"`: an absent ranking and a ranking of 0 are
      both falsy and show "Not ranked". */
  function RankingShown(ranking: Option<int>): (r: RankingText)
    ensures r == NotRanked <==> ranking == None || ranking == Some(0)
    ensures r.Ranked? ==> ranking == Some(r.rank) && r.rank != 0
  {
    match ranking
    case Some(n) => if n != 0 then Ranked(n) else NotRanked
    case None => NotRanked
  }

  /** One rendered table row: a control's main row or its detail panel. */
  datatype RowView =
    | MainRow(id: string, controlFamily: string, controlType: string,
              statement: string, thrCode: string, expanded: bool)
    | DetailRow(id: string, description: string, recommendation: string,
                ranking: RankingText, thrCode: string, comments: string)

  function MainRowOf(c: Control, expandedRow: Option<string>): RowView {
    MainRow(c.id, c.controlFamily, c.controlType, StatementCell(c), ThrCodeCell(c),
            expandedRow == Some(c.id))
  }

  function DetailRowOf(c: Control): RowView {
    DetailRow(c.id, c.description, c.recommendation, RankingShown(c.ranking), c.THR_code, c.comments)
  }

  /** The table body: each control's main row, followed by its detail panel
      exactly when its id is the expanded one. So every control has its main
      row, and there is one extra row per control carrying the expanded id. */
  function RenderRows(controls: seq<Control>, expandedRow: Option<string>): (r: seq<RowView>)
    ensures forall c :: c in controls ==> MainRowOf(c, expandedRow) in r
    ensures |r| == |controls| + (if expandedRow.None? then 0 else CountWithId(controls, expandedRow.value))
  {
    if controls == [] then []
    else
      var c := controls[0];
      var rest := RenderRows(controls[1..], expandedRow);
      assert forall d :: d in controls ==> d == c || d in controls[1..];
      [MainRowOf(c, expandedRow)]
      + (if expandedRow == Some(c.id) then [DetailRowOf(c)] else [])
      + rest
  }

  /** Every detail row in `rows` belongs to the expanded control. */
  ghost predicate DetailsOnlyFor(rows: seq<RowView>, expandedRow: Option<string>) {
    forall k :: 0 <= k < |rows| && rows[k].DetailRow? ==> expandedRow == Some(rows[k].id)
  }

  /** Every detail panel belongs to the expanded control. */
  lemma {:induction false} DetailRowsOnlyForExpanded(controls: seq<Control>, expandedRow: Option<string>)
    ensures DetailsOnlyFor(RenderRows(controls, expandedRow), expandedRow)
  {
    if controls != [] {
      var c := controls[0];
      var head := [MainRowOf(c, expandedRow)]
        + (if expandedRow == Some(c.id) then [DetailRowOf(c)] else []);
      var tail := RenderRows(controls[1..], expandedRow);
      DetailRowsOnlyForExpanded(controls[1..], expandedRow);
      var rows := RenderRows(controls, expandedRow);
      assert rows == head + tail;
      forall k | 0 <= k < |rows| && rows[k].DetailRow?
        ensures expandedRow == Some(rows[k].id)
      {
        if k >= |head| {
          assert rows[k] == tail[k - |head|];
        } else {
          assert rows[k] == head[k];
          assert k == 1 && expandedRow == Some(c.id) && head[1] == DetailRowOf(c);
        }
      }
    }
  }

  function CountDetailRows(rows: seq<RowView>): nat {
    if rows == [] then 0
    else (if rows[0].DetailRow? then 1 else 0) + CountDetailRows(rows[1..])
  }

  function CountMainRows(rows: seq<RowView>): nat {
    if rows == [] then 0
    else (if rows[0].MainRow? then 1 else 0) + CountMainRows(rows[1..])
  }

  /** The number of controls carrying a given id. */
  function CountWithId(controls: seq<Control>, id: string): nat {
    if controls == [] then 0
    else (if controls[0].id == id then 1 else 0) + CountWithId(controls[1..], id)
  }

  lemma {:induction false} CountsAppend(a: seq<RowView>, b: seq<RowView>)
    ensures CountDetailRows(a + b) == CountDetailRows(a) + CountDetailRows(b)
    ensures CountMainRows(a + b) == CountMainRows(a) + CountMainRows(b)
  {
    if a == [] {
      assert a + b == b;
    } else {
      assert (a + b)[1..] == a[1..] + b;
      CountsAppend(a[1..], b);
    }
  }

  /** One main row per control, and one detail row per control whose id is
      the expanded one: none when nothing is expanded. */
  lemma {:induction false} RenderRowsCounts(controls: seq<Control>, expandedRow: Option<string>)
    ensures CountMainRows(RenderRows(controls, expandedRow)) == |controls|
    ensures CountDetailRows(RenderRows(controls, expandedRow)) ==
      (if expandedRow.None? then 0 else CountWithId(controls, expandedRow.value))
  {
    if controls != [] {
      var c := controls[0];
      var head := [MainRowOf(c, expandedRow)]
        + (if expandedRow == Some(c.id) then [DetailRowOf(c)] else []);
      RenderRowsCounts(controls[1..], expandedRow);
      CountsAppend(head, RenderRows(controls[1..], expandedRow));
      CountsAppend([MainRowOf(c, expandedRow)],
                   if expandedRow == Some(c.id) then [DetailRowOf(c)] else []);
    }
  }

  ghost predicate DistinctIds(controls: seq<Control>) {
    forall i, j :: 0 <= i < j < |controls| ==> controls[i].id != controls[j].id
  }

  lemma {:induction false} DistinctIdsCountAtMostOne(controls: seq<Control>, id: string)
    requires DistinctIds(controls)
    ensures CountWithId(controls, id) <= 1
  {
    if controls != [] {
      DistinctIdsCountAtMostOne(controls[1..], id);
      if controls[0].id == id {
        NoOtherWithId(controls[1..], id, controls[0]);
      }
    }
  }

  lemma {:induction false} NoOtherWithId(rest: seq<Control>, id: string, first: Control)
    requires DistinctIds([first] + rest) && first.id == id
    ensures CountWithId(rest, id) == 0
  {
    if rest != [] {
      var whole := [first] + rest;
      assert whole[0] == first && whole[1] == rest[0];
      assert DistinctIds([first] + rest[1..]) by {
        forall i, j | 0 <= i < j < |rest[1..]| + 1
          ensures ([first] + rest[1..])[i].id != ([first] + rest[1..])[j].id
        {
          if i == 0 {
            assert whole[j + 1] == ([first] + rest[1..])[j];
          } else {
            assert whole[i + 1] == ([first] + rest[1..])[i];
            assert whole[j + 1] == ([first] + rest[1..])[j];
          }
        }
      }
      NoOtherWithId(rest[1..], id, first);
    }
  }

  /** With distinct ids at most one detail panel is open. */
  lemma AtMostOneDetailRow(controls: seq<Control>, expandedRow: Option<string>)
    requires DistinctIds(controls)
    ensures CountDetailRows(RenderRows(controls, expandedRow)) <= 1
  {
    RenderRowsCounts(controls, expandedRow);
    if expandedRow.Some? {
      DistinctIdsCountAtMostOne(controls, expandedRow.value);
    }
  }
}

=== FILE: edit_control_form.dfy ===
/**
 The edit form for one control: the validation schema, the blank default
 control, submit (validation first, then the parent's `onSave`), cancel, and
 the title.
 */
module EditControlForm {
  import opened Records

  /** The form's values: seven required strings and two optional ones. */
  datatype FormValues = FormValues(
    id: string,
    controlFamily: string,
    controlType: string,
    description: string,
    statement: string,
    monitorID: Option<string>,
    recommendation: string,
    THR_code: string,
    comments: Option<string>
  )

  /** The schema's fields, in declaration order. */
  datatype Field =
    | FieldId | FieldControlFamily | FieldControlType | FieldDescription | FieldStatement
    | FieldMonitorID | FieldRecommendation | FieldTHRCode | FieldComments

  const SchemaOrder: seq<Field> := [
    FieldId, FieldControlFamily, FieldControlType, FieldDescription, FieldStatement,
    FieldMonitorID, FieldRecommendation, FieldTHRCode, FieldComments
  ]

  /** Where a field sits in the schema: every field is in it. */
  function Position(f: Field): (i: nat)
    ensures i < |SchemaOrder| && SchemaOrder[i] == f
  {
    match f
    case FieldId => 0
    case FieldControlFamily => 1
    case FieldControlType => 2
    case FieldDescription => 3
    case FieldStatement => 4
    case FieldMonitorID => 5
    case FieldRecommendation => 6
    case FieldTHRCode => 7
    case FieldComments => 8
  }

  /** The message a required field reports when empty; `None` for the two
      optional fields, which carry no rule. */
  function RequiredMessage(f: Field): Option<string> {
    match f
    case FieldId => Some("ID is required")
    case FieldControlFamily => Some("Control family is required")
    case FieldControlType => Some("Control type is required")
    case FieldDescription => Some("Description is required")
    case FieldStatement => Some("Statement is required")
    case FieldMonitorID => None
    case FieldRecommendation => Some("Recommendation is required")
    case FieldTHRCode => Some("THR code is required")
    case FieldComments => None
  }

  /** The value the form holds for a field. */
  function ValueOf(v: FormValues, f: Field): Option<string> {
    match f
    case FieldId => Some(v.id)
    case FieldControlFamily => Some(v.controlFamily)
    case FieldControlType => Some(v.controlType)
    case FieldDescription => Some(v.description)
    case FieldStatement => Some(v.statement)
    case FieldMonitorID => v.monitorID
    case FieldRecommendation => Some(v.recommendation)
    case FieldTHRCode => Some(v.THR_code)
    case FieldComments => v.comments
  }

  datatype FieldError = FieldError(field: Field, message: string)

  /** The error one field contributes, if any: a required field fails exactly
      when its value is the empty string. */
  function CheckField(v: FormValues, f: Field): Option<FieldError> {
    match RequiredMessage(f)
    case None => None
    case Some(m) => if ValueOf(v, f) == Some("") then Some(FieldError(f, m)) else None
  }

  function CheckFields(v: FormValues, fields: seq<Field>): (r: seq<FieldError>)
    ensures forall e :: e in r <==> exists i :: 0 <= i < |fields| && CheckField(v, fields[i]) == Some(e)
  {
    if fields == [] then []
    else
      var rest := CheckFields(v, fields[1..]);
      assert forall i :: 0 < i < |fields| ==> fields[i] == fields[1..][i - 1];
      assert forall e :: (exists i :: 0 < i < |fields| && CheckField(v, fields[i]) == Some(e)) ==>
                         (exists j :: 0 <= j < |fields[1..]| && CheckField(v, fields[1..][j]) == Some(e));
      match CheckField(v, fields[0])
      case None => rest
      case Some(e) => [e] + rest
  }

  /** `controlSchema`: the errors of a set of values, in schema order. An
      error names a field and that field's fixed message, and it is reported
      exactly when that required field is empty. */
  function Validate(v: FormValues): (r: seq<FieldError>)
    ensures forall f, m :: FieldError(f, m) in r <==>
      RequiredMessage(f) == Some(m) && ValueOf(v, f) == Some("")
  {
    var r := CheckFields(v, SchemaOrder);
    forall f, m | RequiredMessage(f) == Some(m) && ValueOf(v, f) == Some("")
      ensures FieldError(f, m) in r
    {
      var i := Position(f);
      assert CheckField(v, SchemaOrder[i]) == Some(FieldError(f, m));
    }
    r
  }

  /** A reference statement of validity written directly on the fields. */
  predicate Complete(v: FormValues) {
    v.id != "" && v.controlFamily != "" && v.controlType != "" && v.description != ""
    && v.statement != "" && v.recommendation != "" && v.THR_code != ""
  }

  /** The values pass the schema exactly when the seven required fields are
      all non-empty. */
  lemma ValidIffComplete(v: FormValues)
    ensures Validate(v) == [] <==> Complete(v)
  {
    var r := Validate(v);
    if r == [] {
      forall f | RequiredMessage(f).Some?
        ensures ValueOf(v, f) != Some("")
      {
        assert FieldError(f, RequiredMessage(f).value) !in r;
      }
      assert ValueOf(v, FieldId) != Some("");
      assert ValueOf(v, FieldControlFamily) != Some("");
      assert ValueOf(v, FieldControlType) != Some("");
      assert ValueOf(v, FieldDescription) != Some("");
      assert ValueOf(v, FieldStatement) != Some("");
      assert ValueOf(v, FieldRecommendation) != Some("");
      assert ValueOf(v, FieldTHRCode) != Some("");
    } else {
      assert r[0] in r;
    }
  }

  /** The monitor id and the comments never cause a failure, whether empty or absent. */
  lemma OptionalFieldsNeverFail(v: FormValues, monitorID: Option<string>, comments: Option<string>)
    ensures forall e :: e in Validate(v.(monitorID := monitorID, comments := comments)) <==> e in Validate(v)
    ensures forall e :: e in Validate(v) ==> e.field != FieldMonitorID && e.field != FieldComments
  {
    var w := v.(monitorID := monitorID, comments := comments);
    forall e: FieldError
      ensures e in Validate(w) <==> e in Validate(v)
    {
      assert e == FieldError(e.field, e.message);
      if e.field != FieldMonitorID && e.field != FieldComments {
        assert ValueOf(w, e.field) == ValueOf(v, e.field);
      }
    }
    forall e | e in Validate(v)
      ensures e.field != FieldMonitorID && e.field != FieldComments
    {
      assert e == FieldError(e.field, e.message);
    }
  }

  /** An empty statement reports "Statement is required", and the statement
      has no say in any other field's result. */
  lemma EmptyStatementReported(v: FormValues, s: string)
    ensures v.statement == "" ==> FieldError(FieldStatement, "Statement is required") in Validate(v)
    ensures forall e: FieldError :: e.field != FieldStatement ==>
      (e in Validate(v.(statement := s)) <==> e in Validate(v))
  {
  }

  /** The blank control the form falls back to. */
  const DefaultControl: FormValues :=
    FormValues("", "", "", "", "", Some(""), "", "", Some(""))

  /** The required fields: exactly the ones with a rule. */
  const RequiredFields: set<Field> := {
    FieldId, FieldControlFamily, FieldControlType, FieldDescription, FieldStatement,
    FieldRecommendation, FieldTHRCode
  }

  /** Submitting the blank control fails on exactly the seven required fields. */
  lemma DefaultControlFailsOnRequired()
    ensures forall f :: f in RequiredFields ==> FieldError(f, RequiredMessage(f).value) in Validate(DefaultControl)
    ensures forall e :: e in Validate(DefaultControl) ==> e.field in RequiredFields
  {
    var r := Validate(DefaultControl);
    forall f | f in RequiredFields
      ensures RequiredMessage(f).Some? && FieldError(f, RequiredMessage(f).value) in r
    {
      RequiredIffRule(f);
      assert ValueOf(DefaultControl, f) == Some("");
    }
    forall e | e in r
      ensures e.field in RequiredFields
    {
      assert FieldError(e.field, e.message) in r;
      RequiredIffRule(e.field);
    }
  }

  lemma RequiredIffRule(f: Field)
    ensures f in RequiredFields <==> RequiredMessage(f).Some?
  {
    match f
    case FieldMonitorID =>
    case FieldComments =>
    case _ =>
  }

  // ---------------------------------------------------------------------------
  // Form state and events.

  const SaveFailedBanner: string := "Failed to save control. Please try again."

  /** The form's state: the values on screen, the banner error, the per-field errors. */
  datatype FormState = FormState(values: FormValues, error: Option<string>, fieldErrors: seq<FieldError>)

  /** A fresh form shows the given control (or the blank one) and no errors. */
  function Open(control: Option<FormValues>): (r: FormState)
    ensures r.values == control.GetOr(DefaultControl) && r.error == None && r.fieldErrors == []
  {
    FormState(control.GetOr(DefaultControl), None, [])
  }

  /** What the form asked of its parent. */
  datatype Effect = NoEffect | Saved(data: FormValues) | Cancelled

  datatype Step = Step(state: FormState, effect: Effect)

  /** `handleSubmit(onSubmit)`: invalid values are refused with their field
      errors, before `onSave` and with the banner untouched; valid values
      clear the banner, go to `onSave` unchanged, and if `onSave` throws the
      banner shows the fixed failure message. The entered values stay on
      screen either way. */
  function Submit(st: FormState, entered: FormValues, saveThrows: bool): (r: Step)
    ensures r.state.values == entered
    ensures r.effect.Saved? <==> Complete(entered)
    ensures r.effect.Saved? ==> r.effect.data == entered
    ensures !Complete(entered) ==>
      r.effect == NoEffect && r.state.error == st.error && r.state.fieldErrors == Validate(entered)
    ensures Complete(entered) ==>
      r.state.fieldErrors == [] && r.state.error == (if saveThrows then Some(SaveFailedBanner) else None)
  {
    var errors := Validate(entered);
    ValidIffComplete(entered);
    if errors != [] then Step(st.(values := entered, fieldErrors := errors), NoEffect)
    else
      var banner := if saveThrows then Some(SaveFailedBanner) else None;
      Step(FormState(entered, banner, []), Saved(entered))
  }

  /** An empty statement never reaches `onSave`. */
  lemma SubmitEmptyStatementRefused(st: FormState, entered: FormValues, saveThrows: bool)
    requires entered.statement == ""
    ensures Submit(st, entered, saveThrows).effect == NoEffect
    ensures FieldError(FieldStatement, "Statement is required") in Submit(st, entered, saveThrows).state.fieldErrors
  {
  }

  /** `handleCancel`: the form goes back to the control it was opened with
      and the parent's `onCancel` runs; nothing is saved. */
  function Cancel(st: FormState, original: Option<FormValues>): (r: Step)
    ensures r.effect == Cancelled
    ensures r.state.values == original.GetOr(DefaultControl)
    ensures r.state.fieldErrors == [] && r.state.error == st.error
  {
    Step(st.(values := original.GetOr(DefaultControl), fieldErrors := []), Cancelled)
  }

  /** Cancelling puts back exactly what opening the form on the same control
      showed, without field errors. */
  lemma CancelRestoresOpen(st: FormState, original: Option<FormValues>)
    ensures Cancel(st, original).state.values == Open(original).values
    ensures Cancel(st, original).state.fieldErrors == Open(original).fieldErrors
  {
  }

  /** The card title, or `None` when the form is closed and renders nothing. */
  function Title(control: FormValues, isOpen: bool): (r: Option<string>)
    ensures !isOpen <==> r == None
    ensures isOpen && control.id != "" ==> r == Some("Edit Control: " + control.id)
    ensures isOpen && control.id == "" ==> r == Some("Add New Control")
  {
    if !isOpen then None
    else if control.id != "" then Some("Edit Control: " + control.id)
    else Some("Add New Control")
  }

  /** Editing and adding are told apart by the title: no id can produce the
      add title. */
  lemma TitlesDistinguishEditFromAdd(control: FormValues)
    requires control.id != ""
    ensures Title(control, true) != Title(DefaultControl, true)
  {
    var t := "Edit Control: " + control.id;
    assert t[0] == 'E';
    assert "Add New Control"[0] == 'A';
  }
}

=== FILE: home.dfy ===
/**
 The shell: the selected family and technology it holds, the default
 technology a family change picks, and its local replace-by-id update of
 the controls list.
 */
module Home {
  import opened Records
  import TechnologySelector
  import ControlsTable

  datatype ShellState = ShellState(selectedFamily: string, selectedTechnology: string, controls: seq<Control>)

  /** Family "OS" and technology "Windows 11", over the initial controls. */
  function Initial(controls: seq<Control>): (r: ShellState)
    ensures r.selectedFamily == "OS" && r.selectedTechnology == "Windows 11" && r.controls == controls
  {
    ShellState("OS", "Windows 11", controls)
  }

  /** The technology a family change selects. */
  function DefaultTechnology(family: string): string {
    if family == "OS" then "Windows 11"
    else if family == "Database" then "SQL Server"
    else ""
  }

  /** `handleFamilyChange`: store the family and its default technology. */
  function HandleFamilyChange(st: ShellState, family: string): (r: ShellState)
    ensures r.selectedFamily == family && r.controls == st.controls
    ensures family == "OS" ==> r.selectedTechnology == "Windows 11"
    ensures family == "Database" ==> r.selectedTechnology == "SQL Server"
    ensures family != "OS" && family != "Database" ==> r.selectedTechnology == ""
  {
    st.(selectedFamily := family, selectedTechnology := DefaultTechnology(family))
  }

  /** `handleTechnologyChange`: store the technology, keep the family. */
  function HandleTechnologyChange(st: ShellState, technology: string): (r: ShellState)
    ensures r.selectedTechnology == technology
    ensures r.selectedFamily == st.selectedFamily && r.controls == st.controls
  {
    st.(selectedTechnology := technology)
  }

  /** `handleControlUpdate`: every control with the update's id becomes the update. */
  function HandleControlUpdate(st: ShellState, updated: Control): (r: ShellState)
    ensures r.selectedFamily == st.selectedFamily && r.selectedTechnology == st.selectedTechnology
    ensures |r.controls| == |st.controls|
    ensures forall i :: 0 <= i < |st.controls| && st.controls[i].id == updated.id ==> r.controls[i] == updated
    ensures forall i :: 0 <= i < |st.controls| && st.controls[i].id != updated.id ==> r.controls[i] == st.controls[i]
  {
    st.(controls := ReplaceById(st.controls, updated.id, updated))
  }

  /** The update keeps every position's id: order and identity are preserved. */
  lemma UpdateKeepsIds(st: ShellState, updated: Control)
    ensures forall i :: 0 <= i < |st.controls| ==>
      HandleControlUpdate(st, updated).controls[i].id == st.controls[i].id
  {
  }

  /** An update whose id matches no control leaves the list as it was. */
  lemma UpdateWithUnknownIdIsIdentity(st: ShellState, updated: Control)
    requires forall i :: 0 <= i < |st.controls| ==> st.controls[i].id != updated.id
    ensures HandleControlUpdate(st, updated) == st
  {
  }

  /** Applying the same update twice is the same as applying it once. */
  lemma UpdateIdempotent(st: ShellState, updated: Control)
    ensures HandleControlUpdate(HandleControlUpdate(st, updated), updated) == HandleControlUpdate(st, updated)
  {
  }

  /** The default technology for "OS" is one the selector offers for "OS";
      the default for "Database" is not among the selector's Database options. */
  lemma DefaultTechnologyAgainstSelector()
    ensures DefaultTechnology("OS") in TechnologySelector.DropdownItems(TechnologySelector.SelectorState("OS", ""))
    ensures DefaultTechnology("Database") !in TechnologySelector.DropdownItems(TechnologySelector.SelectorState("Database", ""))
  {
  }

  /** A tab click seen by both components leaves them agreeing on the family. */
  lemma FamilyChangeKeepsShellAndSelectorInStep(sel: TechnologySelector.SelectorState, st: ShellState, family: string)
    ensures var step := TechnologySelector.HandleFamilyChange(sel, family);
      HandleFamilyChange(st, step.notice.family).selectedFamily == step.state.selectedFamily
  {
  }

  /** Both components start on the same family, and the shell's starting
      technology is one the selector offers for it. */
  lemma ShellAndSelectorStartTogether(controls: seq<Control>)
    ensures Initial(controls).selectedFamily == TechnologySelector.Initial().selectedFamily
    ensures Initial(controls).selectedTechnology in TechnologySelector.DropdownItems(TechnologySelector.Initial())
  {
  }

  /** The shell after the table leaves its edit form. `wired` says whether the
      table's `onSave` is the shell's `handleControlUpdate`. The shell passes
      that handler as `onControlUpdate`, a prop the table does not declare, so
      as written the table keeps its no-op `onSave` and `wired` is false. */
  function AfterTableLeaves(st: ShellState, step: ControlsTable.LeaveStep, wired: bool): (r: ShellState)
    ensures !wired || step.saved.None? ==> r == st
    ensures wired && step.saved.Some? ==> r == HandleControlUpdate(st, step.saved.value)
  {
    match step.saved
    case Some(c) => if wired then HandleControlUpdate(st, c) else st
    case None => st
  }

  /** As wired, an edit saved in the table never reaches the shell's list:
      the list keeps the old control where the handler would have put the
      edited one. */
  lemma UnwiredSaveIsLost(st: ShellState, table: ControlsTable.TableState, updated: Control, i: nat)
    requires i < |st.controls| && st.controls[i].id == updated.id && st.controls[i] != updated
    ensures var step := ControlsTable.HandleSave(table, updated, false);
      AfterTableLeaves(st, step, false) == st
      && AfterTableLeaves(st, step, false).controls[i] != updated
      && AfterTableLeaves(st, step, true).controls[i] == updated
  {
  }

  /** With the handler wired, a save the parent accepts replaces every control
      carrying the saved id and leaves the rest, and a cancel changes nothing. */
  lemma WiredSaveReachesList(st: ShellState, table: ControlsTable.TableState, updated: Control)
    ensures var r := AfterTableLeaves(st, ControlsTable.HandleSave(table, updated, false), true);
      |r.controls| == |st.controls|
      && (forall i :: 0 <= i < |st.controls| ==>
            r.controls[i] == (if st.controls[i].id == updated.id then updated else st.controls[i]))
    ensures AfterTableLeaves(st, ControlsTable.HandleCancel(table), true) == st
  {
  }
}

=== FILE: ordering.dfy ===
/**
 The single-column `order` the controls query may carry, evaluated over an
 in-memory sequence of rows: an insertion sort by one column, ascending or
 descending. The order among rows with equal keys is left unspecified.
 */
module Ordering {
  import opened Records
  import opened Text

  /** `a` may come before `b` when ordering by `col` in the given direction. */
  predicate Before(a: Control, b: Control, col: Column, ascending: bool) {
    if ascending then StrLe(Key(a, col), Key(b, col)) else StrLe(Key(b, col), Key(a, col))
  }

  lemma BeforeTotal(a: Control, b: Control, col: Column, ascending: bool)
    ensures Before(a, b, col, ascending) || Before(b, a, col, ascending)
  {
    StrLeTotal(Key(a, col), Key(b, col));
  }

  lemma BeforeTransitive(a: Control, b: Control, c: Control, col: Column, ascending: bool)
    requires Before(a, b, col, ascending) && Before(b, c, col, ascending)
    ensures Before(a, c, col, ascending)
  {
    if ascending {
      StrLeTransitive(Key(a, col), Key(b, col), Key(c, col));
    } else {
      StrLeTransitive(Key(c, col), Key(b, col), Key(a, col));
    }
  }

  /** Every row may come before every later row. */
  ghost predicate Sorted(s: seq<Control>, col: Column, ascending: bool) {
    forall i, j :: 0 <= i < j < |s| ==> Before(s[i], s[j], col, ascending)
  }

  /** Inserts `x` in front of the first row it may precede. */
  function Insert(x: Control, s: seq<Control>, col: Column, ascending: bool): (r: seq<Control>)
    requires Sorted(s, col, ascending)
    ensures Sorted(r, col, ascending)
    ensures multiset(r) == multiset(s) + multiset{x}
    decreases |s|
  {
    if s == [] then [x]
    else if Before(x, s[0], col, ascending) then
      InsertFront(x, s, col, ascending);
      [x] + s
    else
      var rest := Insert(x, s[1..], col, ascending);
      BeforeTotal(x, s[0], col, ascending);
      assert s == [s[0]] + s[1..];
      InsertBehind(s[0], x, s[1..], rest, col, ascending);
      [s[0]] + rest
  }

  lemma InsertFront(x: Control, s: seq<Control>, col: Column, ascending: bool)
    requires Sorted(s, col, ascending) && s != [] && Before(x, s[0], col, ascending)
    ensures Sorted([x] + s, col, ascending)
  {
    var r := [x] + s;
    forall i, j | 0 <= i < j < |r|
      ensures Before(r[i], r[j], col, ascending)
    {
      if i == 0 && j > 1 {
        BeforeTransitive(x, s[0], s[j - 1], col, ascending);
      }
    }
  }

  lemma InsertBehind(h: Control, x: Control, tail: seq<Control>, rest: seq<Control>, col: Column, ascending: bool)
    requires Sorted([h] + tail, col, ascending) && Before(h, x, col, ascending)
    requires Sorted(rest, col, ascending)
    requires multiset(rest) == multiset(tail) + multiset{x}
    ensures Sorted([h] + rest, col, ascending)
    ensures multiset([h] + rest) == multiset([h] + tail) + multiset{x}
  {
    var r := [h] + rest;
    forall j | 0 < j < |r|
      ensures Before(h, r[j], col, ascending)
    {
      var e := rest[j - 1];
      assert r[j] == e;
      assert e in multiset(rest);
      if e != x {
        assert e in multiset(tail);
        var k :| 0 <= k < |tail| && tail[k] == e;
        var ht := [h] + tail;
        assert ht[0] == h && ht[k + 1] == e;
        assert Before(ht[0], ht[k + 1], col, ascending);
      }
    }
    assert multiset([h] + rest) == multiset{h} + multiset(rest);
    assert multiset([h] + tail) == multiset{h} + multiset(tail);
  }

  /** The rows reordered by `col` in the requested direction. */
  function SortBy(s: seq<Control>, col: Column, ascending: bool): (r: seq<Control>)
    ensures Sorted(r, col, ascending)
    ensures multiset(r) == multiset(s)
    ensures |r| == |s|
  {
    if s == [] then []
    else
      var r := Insert(s[0], SortBy(s[1..], col, ascending), col, ascending);
      assert s == [s[0]] + s[1..];
      assert |r| == |multiset(r)|;
      r
  }
}

=== FILE: records.dfy ===
/**
 The record shapes of the registry's remote store (the `Controls` and `Tech`
 tables), together with the small vocabulary every component shares: optional
 values, JavaScript truthiness of optional strings, sort columns and sort
 directions.
 */
module Records {

  /** A value that may be absent (`undefined` or `null` in the program). */
  datatype Option<+T> = None | Some(value: T) {
    function GetOr(default: T): T {
      match this
      case Some(v) => v
      case None => default
    }
  }

  /** JavaScript truthiness of an optional string: absent and "" are falsy. */
  predicate Truthy(s: Option<string>) {
    s.Some? && s.value != ""
  }

  /** One row of the `Controls` table. `ranking` is read by the table's detail
      panel although the declared row type lacks it, so it is optional here. */
  datatype Control = Control(
    id: string,
    controlFamily: string,
    controlType: string,
    description: string,
    statement: string,
    monitorID: string,
    recommendation: string,
    THR_code: string,
    comments: string,
    techId: string,
    ranking: Option<int>,
    createdAt: Option<string>,
    updatedAt: Option<string>
  )

  /** One row of the `Tech` table: a technology and the family it belongs to. */
  datatype Tech = Tech(id: string, name: string, techFamId: string)

  /** The always-present string columns of a control, the keys a sort can name. */
  datatype Column =
    | Id | ControlFamily | ControlType | Description | Statement
    | MonitorID | Recommendation | THRCode | Comments | TechId

  datatype Direction = Asc | Desc

  /** The value a control holds in a column. */
  function Key(c: Control, col: Column): string {
    match col
    case Id => c.id
    case ControlFamily => c.controlFamily
    case ControlType => c.controlType
    case Description => c.description
    case Statement => c.statement
    case MonitorID => c.monitorID
    case Recommendation => c.recommendation
    case THRCode => c.THR_code
    case Comments => c.comments
    case TechId => c.techId
  }

  /** Every control whose id is `id` replaced by `update`, positions kept, as
      the shell's local list update does. */
  function ReplaceById(cs: seq<Control>, id: string, update: Control): (r: seq<Control>)
    ensures |r| == |cs|
    ensures forall i :: 0 <= i < |cs| ==> r[i] == (if cs[i].id == id then update else cs[i])
  {
    seq(|cs|, i requires 0 <= i < |cs| => if cs[i].id == id then update else cs[i])
  }

  /** `a` is `b` with some elements dropped: the order of what remains is kept. */
  ghost predicate SubsequenceOf<T>(a: seq<T>, b: seq<T>)
    decreases |b|
  {
    if b == [] then a == []
    else (a != [] && a[0] == b[0] && SubsequenceOf(a[1..], b[1..])) || SubsequenceOf(a, b[1..])
  }

  lemma {:induction false} EmptySubsequence<T>(b: seq<T>)
    ensures SubsequenceOf([], b)
    decreases |b|
  {
    if b != [] {
      EmptySubsequence(b[1..]);
    }
  }

  /** A prefix of a subsequence of `b` is itself a subsequence of `b`. */
  lemma {:induction false} PrefixOfSubsequence<T>(a: seq<T>, b: seq<T>, p: seq<T>)
    requires p <= a && SubsequenceOf(a, b)
    ensures SubsequenceOf(p, b)
    decreases |b|
  {
    if b == [] {
    } else if a != [] && a[0] == b[0] && SubsequenceOf(a[1..], b[1..]) {
      if p == [] {
        EmptySubsequence(b);
      } else {
        PrefixOfSubsequence(a[1..], b[1..], p[1..]);
      }
    } else {
      PrefixOfSubsequence(a, b[1..], p);
    }
  }
}

=== FILE: technology_selector.dfy ===
/**
 The technology selector: its two pieces of local state (the selected family
 and the search text), the per-family technology options, and the three
 change handlers, which forward every change to the parent.
 */
module TechnologySelector {
  import opened Records

  datatype SelectorState = SelectorState(selectedFamily: string, searchTerm: string)

  /** The family tabs, left to right. */
  const Families: seq<string> := ["OS", "Platforms", "Database", "Middleware", "Network", "Applications"]

  /** The selector starts on the first tab, "OS", whose six options fill the
      dropdown, with an empty search box. */
  function Initial(): (r: SelectorState)
    ensures r.selectedFamily == Families[0] == "OS"
    ensures |DropdownItems(r)| == 6
    ensures r.searchTerm == ""
  {
    SelectorState("OS", "")
  }

  /** `technologyOptions[family]`: `None` when the family has no entry. */
  function TechnologyOptions(family: string): Option<seq<string>> {
    if family == "OS" then
      Some(["Windows 11", "Windows 10", "Windows Server 2019", "Ubuntu 22.04",
            "Red Hat Enterprise Linux 9", "macOS Ventura"])
    else if family == "Platforms" then
      Some(["AWS", "Azure", "Google Cloud Platform", "VMware vSphere", "Kubernetes", "Docker"])
    else if family == "Database" then
      Some(["SQL Server 2022", "Oracle Database 19c", "MySQL 8.0", "PostgreSQL 15",
            "MongoDB 6.0", "MariaDB 10.11"])
    else if family == "Middleware" then
      Some(["Apache Tomcat", "JBoss EAP", "WebSphere", "WebLogic", "Nginx", "IIS"])
    else if family == "Network" then
      Some(["Cisco IOS", "Juniper Junos", "Palo Alto PAN-OS", "F5 BIG-IP", "Fortinet FortiOS",
            "Checkpoint"])
    else if family == "Applications" then
      Some(["Microsoft 365", "Salesforce", "SAP", "Oracle EBS", "Workday", "ServiceNow"])
    else None
  }

  /** The dropdown's items: the options of the selected family, none for
      another string (`?.map` renders nothing). The family only ever holds a
      tab value. */
  function DropdownItems(st: SelectorState): (r: seq<string>)
    ensures st.selectedFamily in Families ==> |r| == 6
    ensures st.selectedFamily !in Families ==> r == []
  {
    TechnologyOptions(st.selectedFamily).GetOr([])
  }

  /** Within every family the six options are distinct. */
  lemma OptionsDistinct(family: string)
    requires family in Families
    ensures var items := DropdownItems(SelectorState(family, ""));
      forall i, j :: 0 <= i < j < |items| ==> items[i] != items[j]
  {
  }

  /** What a handler passes to the parent. */
  datatype Notice = FamilyChanged(family: string) | TechnologyChanged(technology: string) | SearchChanged(term: string)

  datatype Step = Step(state: SelectorState, notice: Notice)

  /** `handleFamilyChange`: store the family and report exactly that value. */
  function HandleFamilyChange(st: SelectorState, value: string): (r: Step)
    ensures r.state.selectedFamily == value && r.state.searchTerm == st.searchTerm
    ensures r.notice == FamilyChanged(r.state.selectedFamily)
  {
    Step(st.(selectedFamily := value), FamilyChanged(value))
  }

  /** `handleTechnologyChange`: report the value, change nothing locally. */
  function HandleTechnologyChange(st: SelectorState, value: string): (r: Step)
    ensures r.state == st && r.notice == TechnologyChanged(value)
  {
    Step(st, TechnologyChanged(value))
  }

  /** `handleSearchChange`: store the input and report the same string. */
  function HandleSearchChange(st: SelectorState, value: string): (r: Step)
    ensures r.state.searchTerm == value && r.state.selectedFamily == st.selectedFamily
    ensures r.notice == SearchChanged(r.state.searchTerm)
  {
    Step(st.(searchTerm := value), SearchChanged(value))
  }

  /** Typing: one change event per entry of `inputs`, in order. */
  function Typing(st: SelectorState, inputs: seq<string>): (SelectorState, seq<Notice>)
    decreases |inputs|
  {
    if inputs == [] then (st, [])
    else
      var step := HandleSearchChange(st, inputs[0]);
      var (last, notices) := Typing(step.state, inputs[1..]);
      (last, [step.notice] + notices)
  }

  /** No debounce: every keystroke's text reaches the parent, in order, and
      the box ends with the last text typed; the family is never touched. */
  lemma {:induction false} TypingForwardsEveryChange(st: SelectorState, inputs: seq<string>)
    ensures var (last, notices) := Typing(st, inputs);
      |notices| == |inputs|
      && (forall i :: 0 <= i < |inputs| ==> notices[i] == SearchChanged(inputs[i]))
      && last.selectedFamily == st.selectedFamily
      && last.searchTerm == (if inputs == [] then st.searchTerm else inputs[|inputs| - 1])
    decreases |inputs|
  {
    if inputs != [] {
      var step := HandleSearchChange(st, inputs[0]);
      TypingForwardsEveryChange(step.state, inputs[1..]);
      var (last, notices) := Typing(step.state, inputs[1..]);
      assert Typing(st, inputs) == (last, [step.notice] + notices);
      if |inputs| > 1 {
        assert inputs[1..][|inputs[1..]| - 1] == inputs[|inputs| - 1];
      }
    }
  }
}

=== FILE: text.dfy ===
/**
 String behaviour the components rely on: the table's `truncateText`, the
 case-insensitive substring match behind the backend's `ilike '%term%'`, and
 the lexicographic order a backend `order` uses on text columns.
 */
module Text {

  /** The marker appended to truncated text. */
  const Ellipsis: string := "..."

  /** The table's `truncateText(text, maxLength)`: empty text renders as "";
      text no longer than `maxLength` is shown as is; longer text is cut to its
      first `maxLength` characters followed by "...". */
  function TruncateText(text: string, maxLength: nat): (r: string)
    ensures text == "" ==> r == ""
    ensures |text| <= maxLength ==> r == text
    ensures |text| > maxLength ==>
      |r| == maxLength + 3 && r[..maxLength] == text[..maxLength] && r[maxLength..] == Ellipsis
  {
    if text == "" then ""
    else if |text| > maxLength then text[..maxLength] + Ellipsis
    else text
  }

  /** The longest text `TruncateText` can show for a given limit. */
  lemma TruncateBound(text: string, maxLength: nat)
    ensures |TruncateText(text, maxLength)| <= maxLength + 3
    ensures TruncateText(text, maxLength) == text || |text| > maxLength
  {
  }

  /** What is shown of a truncated text is the start of the text: the visible
      part (without the marker) is a prefix of the input. */
  lemma TruncateKeepsPrefix(text: string, maxLength: nat)
    ensures var r := TruncateText(text, maxLength);
      var kept := if r == text then r else r[..|r| - 3];
      kept <= text && (r != text ==> |kept| == maxLength)
  {
  }

  /** Truncating an already truncated text with the same limit changes nothing. */
  lemma TruncateIdempotent(text: string, maxLength: nat)
    ensures TruncateText(TruncateText(text, maxLength), maxLength) == TruncateText(text, maxLength)
  {
  }

  /** ASCII lower-casing of one character. */
  function LowerChar(c: char): (r: char)
    ensures 'A' <= c <= 'Z' ==> 'a' <= r <= 'z'
    ensures !('A' <= c <= 'Z') ==> r == c
  {
    if 'A' <= c <= 'Z' then (c as int - 'A' as int + 'a' as int) as char else c
  }

  function Lower(s: string): (r: string)
    ensures |r| == |s|
    ensures forall i :: 0 <= i < |s| ==> r[i] == LowerChar(s[i])
  {
    seq(|s|, i requires 0 <= i < |s| => LowerChar(s[i]))
  }

  /** `needle` sits in `hay` starting at position `i`. */
  ghost predicate OccursAt(hay: string, needle: string, i: int) {
    0 <= i && i + |needle| <= |hay| && hay[i..i + |needle|] == needle
  }

  ghost predicate Occurs(hay: string, needle: string) {
    exists i :: OccursAt(hay, needle, i)
  }

  lemma {:induction false} OccursStep(hay: string, needle: string)
    requires |needle| <= |hay| && hay[..|needle|] != needle
    ensures Occurs(hay, needle) <==> Occurs(hay[1..], needle)
  {
    if Occurs(hay, needle) {
      var i :| OccursAt(hay, needle, i);
      assert i != 0;
      assert hay[1..][i - 1..i - 1 + |needle|] == hay[i..i + |needle|];
      assert OccursAt(hay[1..], needle, i - 1);
    }
    if Occurs(hay[1..], needle) {
      var i :| OccursAt(hay[1..], needle, i);
      assert hay[1..][i..i + |needle|] == hay[i + 1..i + 1 + |needle|];
      assert OccursAt(hay, needle, i + 1);
    }
  }

  /** Substring search, scanning left to right. */
  function Contains(hay: string, needle: string): (r: bool)
    ensures r <==> Occurs(hay, needle)
    decreases |hay|
  {
    if |needle| > |hay| then false
    else if hay[..|needle|] == needle then assert OccursAt(hay, needle, 0); true
    else OccursStep(hay, needle); Contains(hay[1..], needle)
  }

  /** Case-insensitive containment, the meaning of `column ilike '%term%'`
      for a term without pattern characters. */
  predicate ContainsIgnoringCase(hay: string, term: string) {
    Contains(Lower(hay), Lower(term))
  }

  /** Lexicographic order on code points: `a` sorts no later than `b`. */
  predicate StrLe(a: string, b: string)
    decreases |a|
  {
    if a == [] then true
    else if b == [] then false
    else if a[0] != b[0] then a[0] < b[0]
    else StrLe(a[1..], b[1..])
  }

  lemma {:induction false} StrLeTotal(a: string, b: string)
    ensures StrLe(a, b) || StrLe(b, a)
    decreases |a|
  {
    if a != [] && b != [] && a[0] == b[0] {
      StrLeTotal(a[1..], b[1..]);
    }
  }

  lemma {:induction false} StrLeTransitive(a: string, b: string, c: string)
    requires StrLe(a, b) && StrLe(b, c)
    ensures StrLe(a, c)
    decreases |a|
  {
    if a != [] && b != [] && c != [] && a[0] == b[0] && b[0] == c[0] {
      StrLeTransitive(a[1..], b[1..], c[1..]);
    }
  }
}

=== FILE: use_controls.dfy ===
/**
 The controls hook: how the hook's options become a query on the `Controls`
 table, what that query returns when evaluated over an in-memory store, and
 the outcomes of saving and deleting a control.

 The remote store is a value (`Store`); each remote call's success or failure
 is a parameter, since the network is not part of the model.
 */
module UseControls {
  import opened Records
  import opened Text
  import opened Ordering

  /** The hook's options; every field may be absent. */
  datatype Options = Options(
    techFamId: Option<string>,
    techId: Option<string>,
    searchTerm: Option<string>,
    sortColumn: Option<Column>,
    sortDirection: Option<Direction>
  )

  /** Records fetched per query. */
  const PageSize: nat := 50

  const FetchError: string := "Failed to fetch controls"
  const SaveError: string := "Failed to save control"
  const DeleteError: string := "Failed to delete control"

  /** The equality filter a query applies to identify the rows of interest. */
  datatype IdentityFilter = AnyRow | TechIs(techId: string) | FamilyIs(techFamId: string)

  datatype OrderBy = OrderBy(column: Column, ascending: bool)

  /** An abstract select on `Controls`: identity filter, optional OR-search
      over id/statement/description, optional order, inclusive row range. */
  datatype Plan = Plan(
    identity: IdentityFilter,
    search: Option<string>,
    order: Option<OrderBy>,
    rangeFrom: nat,
    rangeTo: nat
  )

  /** Either no request at all (the lazy guard) or one select. */
  datatype Query = NoQuery | Select(plan: Plan)

  /** Neither a technology nor a search term: the hook does not query. */
  predicate LazySkip(o: Options) {
    !Truthy(o.techId) && !Truthy(o.searchTerm)
  }

  /** The query `fetchControls` builds from the options. */
  function BuildQuery(o: Options): (q: Query)
    ensures q.NoQuery? <==> LazySkip(o)
    ensures q.Select? ==> q.plan.rangeFrom == 0 && q.plan.rangeTo == PageSize - 1
    ensures q.Select? && Truthy(o.techId) ==> q.plan.identity == TechIs(o.techId.value)
    ensures q.Select? && !Truthy(o.techId) && Truthy(o.techFamId) ==>
      q.plan.identity == FamilyIs(o.techFamId.value)
    ensures q.Select? && !Truthy(o.techId) && !Truthy(o.techFamId) ==> q.plan.identity == AnyRow
    ensures q.Select? ==> (q.plan.search.Some? <==> Truthy(o.searchTerm))
    ensures q.Select? && Truthy(o.searchTerm) ==> q.plan.search == o.searchTerm
    ensures q.Select? ==> (q.plan.order.Some? <==> o.sortColumn.Some?)
    ensures q.Select? && o.sortColumn.Some? ==>
      q.plan.order.value.column == o.sortColumn.value
      && (q.plan.order.value.ascending <==> o.sortDirection == Some(Asc))
  {
    if LazySkip(o) then NoQuery
    else
      var identity :=
        if Truthy(o.techId) then TechIs(o.techId.value)
        else if Truthy(o.techFamId) then FamilyIs(o.techFamId.value)
        else AnyRow;
      var search := if Truthy(o.searchTerm) then o.searchTerm else None;
      var order :=
        match o.sortColumn
        case None => None
        case Some(col) => Some(OrderBy(col, o.sortDirection == Some(Asc)));
      Select(Plan(identity, search, order, 0, PageSize - 1))
  }

  /** The remote store: the `Controls` rows and the `Tech` rows they join to. */
  datatype Store = Store(controls: seq<Control>, techs: seq<Tech>)

  /** The family of a technology, through the first `Tech` row with that id. */
  function FamilyOf(techs: seq<Tech>, techId: string): (r: Option<string>)
    ensures r.Some? <==> exists i :: 0 <= i < |techs| && techs[i].id == techId
    ensures r.Some? ==> exists i :: 0 <= i < |techs| && techs[i].id == techId && techs[i].techFamId == r.value
  {
    if techs == [] then None
    else if techs[0].id == techId then Some(techs[0].techFamId)
    else
      var r := FamilyOf(techs[1..], techId);
      assert forall i :: 0 < i < |techs| ==> techs[i] == techs[1..][i - 1];
      r
  }

  /** The identity filter on one control: any row, the rows of one
      technology, or the rows whose technology is in one family. */
  predicate MatchesIdentity(f: IdentityFilter, techs: seq<Tech>, c: Control): (r: bool)
    ensures f == AnyRow ==> r
    ensures f.TechIs? ==> (r <==> c.techId == f.techId)
    ensures f.FamilyIs? && r ==>
      exists i :: 0 <= i < |techs| && techs[i].id == c.techId && techs[i].techFamId == f.techFamId
    ensures f.FamilyIs? && (exists i :: 0 <= i < |techs| && techs[i].id == c.techId)
      && (forall i :: 0 <= i < |techs| && techs[i].id == c.techId ==> techs[i].techFamId == f.techFamId)
      ==> r
  {
    match f
    case AnyRow => true
    case TechIs(t) => c.techId == t
    case FamilyIs(fam) => FamilyOf(techs, c.techId) == Some(fam)
  }

  /** The OR of three case-insensitive containment tests: without a term
      every row matches; with one, a row matches exactly when the lower-cased
      term occurs in its lower-cased id, statement or description. */
  predicate MatchesSearch(search: Option<string>, c: Control): (r: bool)
    ensures search.None? ==> r
    ensures search.Some? ==> (r <==>
      Occurs(Lower(c.id), Lower(search.value))
      || Occurs(Lower(c.statement), Lower(search.value))
      || Occurs(Lower(c.description), Lower(search.value)))
  {
    match search
    case None => true
    case Some(t) =>
      ContainsIgnoringCase(c.id, t)
      || ContainsIgnoringCase(c.statement, t)
      || ContainsIgnoringCase(c.description, t)
  }

  /** The identity filter and the search, ANDed. */
  predicate Keeps(p: Plan, techs: seq<Tech>, c: Control) {
    MatchesIdentity(p.identity, techs, c) && MatchesSearch(p.search, c)
  }

  /** The rows a plan's filters keep, in store order. */
  function Filter(p: Plan, techs: seq<Tech>, rows: seq<Control>): (r: seq<Control>)
    ensures |r| <= |rows|
    ensures forall c :: c in r ==> c in rows && Keeps(p, techs, c)
    ensures forall c :: c in rows && Keeps(p, techs, c) ==> c in r
    ensures SubsequenceOf(r, rows)
  {
    if rows == [] then []
    else
      var rest := Filter(p, techs, rows[1..]);
      assert forall c :: c in rows ==> c == rows[0] || c in rows[1..];
      if Keeps(p, techs, rows[0]) then [rows[0]] + rest else rest
  }

  /** The rows positioned `from` through `to` (both inclusive), clipped to the sequence. */
  function Range(s: seq<Control>, from: nat, to: nat): (r: seq<Control>)
    ensures from <= to ==> |r| <= to - from + 1
    ensures from == 0 ==> r <= s
    ensures from == 0 && |s| <= to ==> r == s
    ensures from == 0 ==> |r| == if |s| <= to then |s| else to + 1
    ensures forall c :: c in r ==> c in s
  {
    var lo := if from < |s| then from else |s|;
    var hi := if to + 1 < |s| then to + 1 else |s|;
    if lo <= hi then s[lo..hi] else []
  }

  /** The filtered rows, ordered when the plan orders them. */
  function Ordered(p: Plan, store: Store): (r: seq<Control>)
    ensures multiset(r) == multiset(Filter(p, store.techs, store.controls))
  {
    var kept := Filter(p, store.techs, store.controls);
    match p.order
    case None => kept
    case Some(o) => SortBy(kept, o.column, o.ascending)
  }

  /** What the backend answers to a plan over a store. */
  function Run(p: Plan, store: Store): (r: seq<Control>)
    ensures p.rangeFrom <= p.rangeTo ==> |r| <= p.rangeTo - p.rangeFrom + 1
    ensures forall c :: c in r ==> c in store.controls && Keeps(p, store.techs, c)
  {
    var ordered := Ordered(p, store);
    var r := Range(ordered, p.rangeFrom, p.rangeTo);
    assert forall c :: c in r ==> c in multiset(ordered);
    r
  }

  /** The rows the hook's options select from a store: none under the lazy
      guard, otherwise at most a page of stored rows that pass the filters. */
  function Answer(o: Options, store: Store): (r: seq<Control>)
    ensures LazySkip(o) ==> r == []
    ensures |r| <= PageSize
    ensures !LazySkip(o) ==> forall c :: c in r ==> c in store.controls && Keeps(BuildQuery(o).plan, store.techs, c)
  {
    match BuildQuery(o)
    case NoQuery => []
    case Select(p) => Run(p, store)
  }

  // ---------------------------------------------------------------------------
  // Properties of the query plan, stated over its evaluation.

  /** A family id alone never fetches anything, whatever the store holds. */
  lemma FamilyAloneNeverFetches(o: Options, store: Store)
    requires !Truthy(o.techId) && !Truthy(o.searchTerm)
    ensures BuildQuery(o) == NoQuery
    ensures Answer(o, store) == []
  {
  }

  /** Once a technology is chosen the family id plays no part in the query. */
  lemma TechIdOverridesFamily(o: Options, fam: Option<string>)
    requires Truthy(o.techId)
    ensures BuildQuery(o.(techFamId := fam)) == BuildQuery(o)
  {
  }

  /** With a technology chosen, every returned control belongs to it. */
  lemma SelectByTechOnlyThatTech(o: Options, store: Store)
    requires Truthy(o.techId)
    ensures forall c :: c in Answer(o, store) ==> c.techId == o.techId.value
  {
  }

  /** Without a technology but with a family, every returned control's
      technology belongs to that family. */
  lemma SelectByFamilyOnlyThatFamily(o: Options, store: Store)
    requires !Truthy(o.techId) && Truthy(o.techFamId)
    ensures forall c :: c in Answer(o, store) ==>
      exists i :: (0 <= i < |store.techs| && store.techs[i].id == c.techId
                   && store.techs[i].techFamId == o.techFamId.value)
  {
  }

  /** With a search term, every returned control has the term in its id,
      statement or description, ignoring case. */
  lemma SelectBySearchMatches(o: Options, store: Store)
    requires Truthy(o.searchTerm)
    ensures forall c :: c in Answer(o, store) ==>
      ContainsIgnoringCase(c.id, o.searchTerm.value)
      || ContainsIgnoringCase(c.statement, o.searchTerm.value)
      || ContainsIgnoringCase(c.description, o.searchTerm.value)
  {
  }

  /** The answer is the first page of the ordered, filtered rows: a prefix
      of that sequence, a full page of fifty when more match, all of them
      otherwise. */
  lemma SelectIsFirstPage(o: Options, store: Store)
    requires !LazySkip(o)
    ensures var n := |Ordered(BuildQuery(o).plan, store)|;
      |Answer(o, store)| == if n < PageSize then n else PageSize
    ensures Answer(o, store) <= Ordered(BuildQuery(o).plan, store)
    ensures |Ordered(BuildQuery(o).plan, store)| <= PageSize ==>
      Answer(o, store) == Ordered(BuildQuery(o).plan, store)
  {
  }

  /** Completeness: when no more than a page matches, every stored control
      that passes the filters is returned. */
  lemma {:induction false} SelectComplete(o: Options, store: Store, c: Control)
    requires !LazySkip(o)
    requires c in store.controls && Keeps(BuildQuery(o).plan, store.techs, c)
    requires |Filter(BuildQuery(o).plan, store.techs, store.controls)| <= PageSize
    ensures c in Answer(o, store)
  {
    var p := BuildQuery(o).plan;
    var kept := Filter(p, store.techs, store.controls);
    assert c in kept;
    assert c in multiset(Ordered(p, store));
    SelectIsFirstPage(o, store);
  }

  /** With a sort column the answer is ordered by it, ascending exactly when
      the direction is "asc". */
  lemma SelectSorted(o: Options, store: Store)
    requires !LazySkip(o) && o.sortColumn.Some?
    ensures Sorted(Answer(o, store), o.sortColumn.value, o.sortDirection == Some(Asc))
  {
  }

  /** Without a sort column no order is applied: the answer is the first
      rows of the filtered rows, and they come in store order. */
  lemma SelectUnorderedKeepsStoreOrder(o: Options, store: Store)
    requires !LazySkip(o) && o.sortColumn.None?
    ensures Answer(o, store) <= Filter(BuildQuery(o).plan, store.techs, store.controls)
    ensures SubsequenceOf(Answer(o, store), store.controls)
  {
    var kept := Filter(BuildQuery(o).plan, store.techs, store.controls);
    PrefixOfSubsequence(kept, store.controls, Answer(o, store));
  }

  // ---------------------------------------------------------------------------
  // Hook state and the three remote operations.

  /** The hook's observable state (the loading flag is not modelled). */
  datatype HookState = HookState(controls: seq<Control>, error: Option<string>)

  const InitialState: HookState := HookState([], None)

  /** `fetchControls`: `readFails` says whether the remote read fails. A
      successful read stores the answer under the intended family filter; it
      is the answer of the query as sent whenever a technology is chosen or no
      family is given. */
  function Fetch(st: HookState, o: Options, store: Store, readFails: bool): (r: HookState)
    ensures LazySkip(o) ==> r == HookState([], st.error)
    ensures !LazySkip(o) && readFails ==> r == HookState(st.controls, Some(FetchError))
    ensures !LazySkip(o) && !readFails ==> r.error == None && r.controls == Answer(o, store)
    ensures !LazySkip(o) && !readFails && (Truthy(o.techId) || !Truthy(o.techFamId)) ==>
      r.controls == AnswerAsWritten(o, store)
  {
    match BuildQuery(o)
    case NoQuery => st.(controls := [])
    case Select(p) =>
      if readFails then st.(error := Some(FetchError))
      else HookState(Run(p, store), None)
  }

  /** The hook's first fetch: with neither a technology nor a search term the
      hook stays empty with no error; a failed first read leaves the list empty
      and reports the fetch error. */
  lemma FirstFetch(o: Options, store: Store, readFails: bool)
    ensures LazySkip(o) ==> Fetch(InitialState, o, store, readFails) == InitialState
    ensures !LazySkip(o) && readFails ==> Fetch(InitialState, o, store, readFails) == HookState([], Some(FetchError))
    ensures !LazySkip(o) && !readFails ==> Fetch(InitialState, o, store, readFails).error == None
  {
  }

  /** A column a `Partial<Control>` may carry. */
  datatype PatchField = StringColumn(column: Column) | RankingField | CreatedAtField | UpdatedAtField

  /** A `Partial<Control>`: the values in `row` of exactly the columns in `present`. */
  datatype Patch = Patch(row: Control, present: set<PatchField>)

  /** The nine columns the edit form's schema produces. */
  const SchemaColumns: set<PatchField> := {
    StringColumn(Id), StringColumn(ControlFamily), StringColumn(ControlType), StringColumn(Description),
    StringColumn(Statement), StringColumn(MonitorID), StringColumn(Recommendation), StringColumn(THRCode),
    StringColumn(Comments)
  }

  /** The partial's id, when it carries one. */
  function PatchId(p: Patch): Option<string> {
    if StringColumn(Id) in p.present then Some(p.row.id) else None
  }

  /** `given` when the partial has the column, otherwise `kept`. */
  function Pick<T>(has: bool, given: T, kept: T): T {
    if has then given else kept
  }

  /** `{ ...stored, ...p }`: every column the partial carries overrides the stored
      value, every other column keeps it. */
  function Merge(stored: Control, p: Patch): (r: Control)
    ensures r.id == (if StringColumn(Id) in p.present then p.row.id else stored.id)
    ensures r.techId == (if StringColumn(TechId) in p.present then p.row.techId else stored.techId)
    ensures r.ranking == (if RankingField in p.present then p.row.ranking else stored.ranking)
    ensures r.createdAt == (if CreatedAtField in p.present then p.row.createdAt else stored.createdAt)
    ensures r.updatedAt == (if UpdatedAtField in p.present then p.row.updatedAt else stored.updatedAt)
  {
    Control(
      Pick(StringColumn(Id) in p.present, p.row.id, stored.id),
      Pick(StringColumn(ControlFamily) in p.present, p.row.controlFamily, stored.controlFamily),
      Pick(StringColumn(ControlType) in p.present, p.row.controlType, stored.controlType),
      Pick(StringColumn(Description) in p.present, p.row.description, stored.description),
      Pick(StringColumn(Statement) in p.present, p.row.statement, stored.statement),
      Pick(StringColumn(MonitorID) in p.present, p.row.monitorID, stored.monitorID),
      Pick(StringColumn(Recommendation) in p.present, p.row.recommendation, stored.recommendation),
      Pick(StringColumn(THRCode) in p.present, p.row.THR_code, stored.THR_code),
      Pick(StringColumn(Comments) in p.present, p.row.comments, stored.comments),
      Pick(StringColumn(TechId) in p.present, p.row.techId, stored.techId),
      Pick(RankingField in p.present, p.row.ranking, stored.ranking),
      Pick(CreatedAtField in p.present, p.row.createdAt, stored.createdAt),
      Pick(UpdatedAtField in p.present, p.row.updatedAt, stored.updatedAt))
  }

  /** Column by column, the merged row holds the partial's value where the
      partial has the column and the stored value elsewhere. */
  lemma MergeColumns(stored: Control, p: Patch)
    ensures forall col :: Key(Merge(stored, p), col) == (if StringColumn(col) in p.present then Key(p.row, col) else Key(stored, col))
  {
  }

  /** `update({ ...p, updated_at: now }).eq("id", id)` over the stored rows. */
  function UpdateById(cs: seq<Control>, p: Patch, now: string): (r: seq<Control>)
    ensures |r| == |cs|
    ensures forall i :: 0 <= i < |cs| ==>
      r[i] == (if cs[i].id == p.row.id then Merge(cs[i], p).(updatedAt := Some(now)) else cs[i])
  {
    seq(|cs|, i requires 0 <= i < |cs| => if cs[i].id == p.row.id then Merge(cs[i], p).(updatedAt := Some(now)) else cs[i])
  }

  /** The write `saveControl` chooses: when the partial carries a non-empty
      id, every row with that id takes the partial's columns and is stamped
      with `now`; otherwise the partial is inserted, its missing columns taking
      the table's `defaults`. */
  function Write(store: Store, p: Patch, defaults: Control, now: string): (r: Store)
    ensures r.techs == store.techs
    ensures Truthy(PatchId(p)) ==> |r.controls| == |store.controls|
    ensures Truthy(PatchId(p)) ==> forall i :: 0 <= i < |store.controls| ==>
      r.controls[i] == (if store.controls[i].id == p.row.id then Merge(store.controls[i], p).(updatedAt := Some(now))
                        else store.controls[i])
    ensures !Truthy(PatchId(p)) ==> r.controls == store.controls + [Merge(defaults, p)]
  {
    if Truthy(PatchId(p)) then store.(controls := UpdateById(store.controls, p, now))
    else store.(controls := store.controls + [Merge(defaults, p)])
  }

  /** The outcome of a save or delete: its boolean result, the hook's state
      afterwards and the store afterwards. */
  datatype Outcome = Outcome(ok: bool, state: HookState, store: Store)

  /** `saveControl`: the write, then (if it succeeded) a refetch. A successful
      write leaves the store as `Write` describes; the refetch reports its own
      failure in the state and never turns the result false. */
  function SaveControl(st: HookState, o: Options, store: Store, p: Patch, defaults: Control, now: string,
                       writeFails: bool, readFails: bool): (r: Outcome)
    ensures r.ok <==> !writeFails
    ensures !r.ok ==> r.store == store && r.state == HookState(st.controls, Some(SaveError))
    ensures r.ok ==> r.store == Write(store, p, defaults, now)
    ensures r.ok ==> r.state == Fetch(HookState(st.controls, None), o, r.store, readFails)
  {
    if writeFails then Outcome(false, st.(error := Some(SaveError)), store)
    else
      var store' := Write(store, p, defaults, now);
      Outcome(true, Fetch(st.(error := None), o, store', readFails), store')
  }

  /** A save with an id updates in place: the row count is kept, rows with
      another id are untouched, and each row with that id takes the columns
      the partial carries, keeps every other column, and is stamped. */
  lemma SaveWithIdUpdatesInPlace(store: Store, p: Patch, defaults: Control, now: string)
    requires Truthy(PatchId(p))
    ensures var s := Write(store, p, defaults, now).controls;
      |s| == |store.controls|
      && (forall i :: 0 <= i < |s| && store.controls[i].id != p.row.id ==> s[i] == store.controls[i])
      && (forall i, col :: 0 <= i < |s| && store.controls[i].id == p.row.id ==>
            Key(s[i], col) == (if StringColumn(col) in p.present then Key(p.row, col) else Key(store.controls[i], col)))
      && (forall i :: 0 <= i < |s| && store.controls[i].id == p.row.id ==>
            s[i].updatedAt == Some(now)
            && s[i].ranking == (if RankingField in p.present then p.row.ranking else store.controls[i].ranking)
            && s[i].createdAt == (if CreatedAtField in p.present then p.row.createdAt else store.controls[i].createdAt))
  {
  }

  /** A save from the edit form, whose values hold only the schema's nine
      columns, never moves a control to another technology: each row keeps
      its id, technology, ranking and creation time. */
  lemma FormSaveKeepsTechnology(store: Store, p: Patch, defaults: Control, now: string)
    requires Truthy(PatchId(p)) && p.present <= SchemaColumns
    ensures var s := Write(store, p, defaults, now).controls;
      |s| == |store.controls|
      && forall i :: 0 <= i < |s| ==>
        s[i].id == store.controls[i].id && s[i].techId == store.controls[i].techId
        && s[i].ranking == store.controls[i].ranking && s[i].createdAt == store.controls[i].createdAt
  {
  }

  /** Through the hook: a successful save of the edit form's values keeps
      every stored control's id and technology, and the refetched list is
      the query's answer over that store. */
  lemma HookFormSaveKeepsTechnology(st: HookState, o: Options, store: Store, p: Patch, defaults: Control,
                                    now: string, readFails: bool)
    requires Truthy(PatchId(p)) && p.present <= SchemaColumns
    ensures var r := SaveControl(st, o, store, p, defaults, now, false, readFails);
      r.ok && |r.store.controls| == |store.controls|
      && (forall i :: 0 <= i < |store.controls| ==>
            r.store.controls[i].id == store.controls[i].id && r.store.controls[i].techId == store.controls[i].techId)
      && (!readFails ==> r.state.controls == Answer(o, r.store))
  {
  }

  /** The choice rests on the id alone: a save with an id that no row has
      changes nothing (it never inserts). */
  lemma SaveWithUnknownIdChangesNothing(store: Store, p: Patch, defaults: Control, now: string)
    requires Truthy(PatchId(p))
    requires forall i :: 0 <= i < |store.controls| ==> store.controls[i].id != p.row.id
    ensures Write(store, p, defaults, now) == store
  {
  }

  /** A save without an id appends one row, which carries every column the
      partial has and the table's default in every other. */
  lemma SaveWithoutIdInserts(store: Store, p: Patch, defaults: Control, now: string)
    requires !Truthy(PatchId(p))
    ensures var s := Write(store, p, defaults, now).controls;
      |s| == |store.controls| + 1 && s[..|store.controls|] == store.controls
      && (forall col :: Key(s[|store.controls|], col) ==
            (if StringColumn(col) in p.present then Key(p.row, col) else Key(defaults, col)))
  {
  }

  /** The rows whose id differs from `id`, in order. */
  function RemoveId(rows: seq<Control>, id: string): (r: seq<Control>)
    ensures |r| <= |rows|
    ensures forall c :: c in r ==> c in rows && c.id != id
    ensures forall c :: c in rows && c.id != id ==> c in r
    ensures SubsequenceOf(r, rows)
  {
    if rows == [] then []
    else
      var rest := RemoveId(rows[1..], id);
      assert forall c :: c in rows ==> c == rows[0] || c in rows[1..];
      if rows[0].id == id then rest else [rows[0]] + rest
  }

  /** `deleteControl`: delete by id, then (if it succeeded) a refetch. */
  function DeleteControl(st: HookState, o: Options, store: Store, id: string,
                         deleteFails: bool, readFails: bool): (r: Outcome)
    ensures r.ok <==> !deleteFails
    ensures !r.ok ==> r.store == store && r.state == HookState(st.controls, Some(DeleteError))
    ensures r.ok ==> r.store.techs == store.techs
    ensures r.ok ==> forall c :: c in r.store.controls <==> c in store.controls && c.id != id
    ensures r.ok ==> SubsequenceOf(r.store.controls, store.controls)
    ensures r.ok ==> r.state == Fetch(HookState(st.controls, None), o, r.store, readFails)
  {
    if deleteFails then Outcome(false, st.(error := Some(DeleteError)), store)
    else
      var store' := store.(controls := RemoveId(store.controls, id));
      Outcome(true, Fetch(st.(error := None), o, store', readFails), store')
  }

  // ---------------------------------------------------------------------------
  // The family filter as the query sends it.

  /** The plan the backend applies. The filter `Tech.techFamId` names a column
      of the embedded `Tech` resource, and the select embeds it without
      `!inner`, so the filter only blanks the embedded `Tech` of other
      families: no control row is removed. */
  function AnswerAsWritten(o: Options, store: Store): (r: seq<Control>)
    ensures Truthy(o.techId) || !Truthy(o.techFamId) ==> r == Answer(o, store)
    ensures !Truthy(o.techId) ==> r == Answer(o.(techFamId := None), store)
  {
    match BuildQuery(o)
    case NoQuery => []
    case Select(p) => Run(if p.identity.FamilyIs? then p.(identity := AnyRow) else p, store)
  }

  /** The discrepancy on one store: asking for family "A" with a search term
      returns a control whose technology is in family "B". */
  lemma FamilyFilterAsWrittenKeepsOtherFamilies()
    ensures var c := Control("x", "", "", "", "", "", "", "", "", "t", None, None, None);
      var o := Options(Some("A"), None, Some("x"), None, None);
      var store := Store([c], [Tech("t", "T", "B")]);
      c in AnswerAsWritten(o, store) && c !in Answer(o, store)
  {
  }
}
